=== FILE: README.md ===
# Schema-driven form engine, modelled in Dafny

This project models the core of a small React application in which an
operator assembles a list of field descriptors (label, input type, choice
options, validation rules) and a data-entry form is rendered and validated
from that list. Four pieces are modelled:

- **The form builder** (`FormBuilder.js`): the builder's input strings, the
  field each `addField` builds from them (options split on commas and trimmed
  for the choice kinds only, empty bound and pattern inputs read as absent),
  appending it and resetting the inputs, `removeField` as an index filter, and
  the seven-field default schema. Module `FormBuilder`, class
  `FormBuilder.Builder`.
- **The validation loop** of `handleSubmit` (`DynamicForm.js`): the fields in
  order, the rules `required`, `minLength`, `maxLength`, `pattern` in that
  order, each failing rule overwriting the field's message and clearing
  `valid`. `DynamicForm.ValidateAll` is the loop, proved equal to the fold
  `DynamicForm.BuildErrors`; the lemmas next to it state what the error
  record holds.
- **The edit handler** `handleChange`: one key of the value record replaced,
  a shown error for that key blanked to `""`. Class `DynamicForm.FormSession`
  holds the two records.
- **The field control** (`Field.js`): the switch on the `type` string over
  eight kinds, the shape of the value each kind reports, the checkbox toggle
  (copy, then push or `indexOf` + `splice`) as the method
  `FieldControl.ToggleOption`, and the "checked" tests for checkbox and
  radio options.

The JavaScript string operations the engine relies on (`split`, `join`,
`trim`, `length`, `parseInt` on digit strings, the decimal rendering of a
number in a template literal) are written out in module `Text`.

Behaviour reproduced as the code has it:

- A missing value is read as `""` (`values[label] || ""`). Labels that name
  a property inherited from `Object.prototype` are the exception; see
  "Left out".
- `required` fails only on the empty string. An empty checkbox selection is a
  truthy array and passes.
- A bound of 0 is falsy and is never checked; an empty pattern likewise.
- A string's `length` counts UTF-16 code units, so a character outside the
  Basic Multilingual Plane counts twice against a bound.
- A file value has no `length`, so length rules never fail on it. The pattern
  test sees the value as `RegExp.prototype.test` would: a selection joined
  with commas, a file object as `"[object File]"`.
- Only the last failing rule's message is kept.
- Labels are not checked for uniqueness, so duplicate labels are accepted.
  Fields that share a label share one entry, which holds the message of the
  last failing field with that label.
- An unknown `type` renders nothing; no error is raised. Reading
  `field.validation.required` throws a TypeError when `validation` is absent.
  The text-like kinds, the select and the file input read it when rendered.
  The radio group reads it once per option, so a radio group with no options
  renders empty without throwing. The checkbox group never reads it.
- An out-of-range index given to `removeField` leaves the list unchanged.
- The checkbox handler edits a copy of the selection. In the model a selection
  is a sequence value, so the caller's selection cannot change.

The regular-expression engine is a parameter: every member that tests a
pattern takes `matches: (string, string) -> bool`, standing for
`new RegExp(pattern).test(text)`.

## Model

| member | source | states |
|---|---|---|
| `DynamicForm.ValidateAll` | src/components/DynamicForm.js:27-63 | the loop's error record is the in-order fold `BuildErrors` of each field's last failing rule's message, and `valid` is true exactly when that record is empty |
| `DynamicForm.ValidateField` | src/components/DynamicForm.js:31-62 | one pass of the loop body: a field fails exactly when `Violation` names a rule, and then its entry becomes that rule's message with every other entry unchanged; a passing field leaves the record as it was |
| `DynamicForm.FormSession.HandleSubmit` | src/components/DynamicForm.js:25-67 | once the handler runs, the error record is replaced wholesale by the freshly built one (nothing of the old record survives); the values are sent exactly when every field passes |
| `DynamicForm.FormSession.ShowsError` | src/components/DynamicForm.js:17 | `errors[key]` is truthy: present and non-empty; `HandleChange` is stated through it |
| `DynamicForm.FormSession.HandleChange` | src/components/DynamicForm.js:11-22 | the value record gains `key := value` with every other key unchanged; a shown error for `key` becomes `""`, an absent or empty one is left alone, no other entry changes |
| `DynamicForm.FormSession.constructor` | src/components/DynamicForm.js:8-9 | a session starts with empty value and error records |
| `DynamicForm.LastFailingRuleWins` | src/components/DynamicForm.js:33-61 | the rule whose message is kept is the last in checking order of the rules that fail, and there is none exactly when no rule fails |
| `DynamicForm.NoRulesNoViolation` | src/components/DynamicForm.js:32 | a field without `validation` fails no rule |
| `DynamicForm.RequiredBlankFails` | src/components/DynamicForm.js:31-61 | a required field whose value is blank always fails, and its kept rule is the pattern rule exactly when the blank string fails the pattern |
| `DynamicForm.EmptySelectionPassesRequired` | src/components/DynamicForm.js:33 | an empty checkbox selection never fails `required` |
| `DynamicForm.MinLengthBoundary` | src/components/DynamicForm.js:37-45 | for a minimum m > 0, a string or selection of length m passes and one of length m - 1 fails |
| `DynamicForm.MaxLengthBoundary` | src/components/DynamicForm.js:46-54 | for a maximum M > 0, length M passes and length M + 1 fails |
| `DynamicForm.UncheckedBounds` | src/components/DynamicForm.js:37-54 | an absent bound, a bound of 0 and a file value never fail a length rule |
| `DynamicForm.MessageInjective` | src/components/DynamicForm.js:34-59 | every stored message is non-empty and distinct rules (including distinct bounds) give distinct messages |
| `DynamicForm.FailsRequired` | src/components/DynamicForm.js:33 | `required && !value` on a value already defaulted to `""`: fails iff `required` is set and the value is the empty string (an empty selection and a file are truthy); used by `RequiredBlankFails` and `EmptySelectionPassesRequired` |
| `DynamicForm.FailsMinLength` | src/components/DynamicForm.js:37-39 | fails iff the minimum is present and non-zero, the value has a length, and that length is below the minimum; used by `MinLengthBoundary` and `UncheckedBounds` |
| `DynamicForm.FailsMaxLength` | src/components/DynamicForm.js:46-48 | fails iff the maximum is present and non-zero, the value has a length, and that length is above the maximum; used by `MaxLengthBoundary` and `UncheckedBounds` |
| `DynamicForm.FailsPattern` | src/components/DynamicForm.js:55-57 | fails iff the pattern is present and non-empty and the regular-expression test rejects the value's string form; used by `RequiredBlankFails` and the Email scenario |
| `DynamicForm.Violation` | src/components/DynamicForm.js:32-61 | the rule whose message a field keeps: only a field with `validation` has one, the pattern message is kept exactly when the pattern fails, and the required message only when no length rule fails either; `LastFailingRuleWins` proves it is the last of `FailingRules` |
| `DynamicForm.Message` | src/components/DynamicForm.js:34-59 | every stored message is non-empty, so the error line is shown; `MessageInjective` proves distinct rules give distinct texts |
| `DynamicForm.Length` | src/components/DynamicForm.js:39-48 | a file value has no length; a string's length is between its number of characters and twice that (UTF-16 code units); a selection's is its number of options |
| `DynamicForm.AstralCharCountsTwice` | src/components/DynamicForm.js:37-54 | "a" followed by U+1F600 has length 3 and exceeds a maximum of 2; U+1F600 alone meets a minimum of 2 |
| `DynamicForm.AsString` | src/components/DynamicForm.js:57 | the string `test` is given: the text itself, a selection joined with commas, a file as `"[object File]"`; `SelectionAsString` proves the selection case splits back |
| `DynamicForm.SelectionAsString` | src/components/DynamicForm.js:57 | the string a pattern tests for a non-empty selection of comma-free options splits on commas back into the selection |
| `Schema.ValueOf` | src/components/DynamicForm.js:31 | the value read is the stored one when the label has an entry, and otherwise the blank string |
| `Text.Utf16Length` | src/components/DynamicForm.js:39 | `length` lies between the number of characters and twice that, and equals the number of characters exactly when none lies outside the Basic Multilingual Plane |
| `FieldControl.KindOf` | src/components/Field.js:7-116 | the case chosen for a type string is the case labelled with that string; `KindOfName` proves each label reaches its own case and no other |
| `FieldControl.Render` | src/components/Field.js:7-116 | a rendered control is of the kind its type names, and rendering throws exactly for a field without `validation` whose control reads it: every known kind but checkbox, except a radio group with no options; `RenderKnownKinds` proves only the eight labels render |
| `FieldControl.EmptyRadioRenders` | src/components/Field.js:88-105 | a radio group without `validation` renders, empty, when it has no options, and throws once it has one |
| `FieldControl.Toggled` | src/components/Field.js:71-78 | checking adds one copy of the option to the selection's multiset and unchecking takes one away; `ToggleRoundTrip` and `RemoveFirstSplice` pin down the order |
| `DynamicForm.BuildErrors` | src/components/DynamicForm.js:27-63 | the error record the loop builds, as a fold over the fields in order; `ErrorKeys`, `EntryOfLastFailing` and `ErrorsNonEmpty` state its keys and entries, and `ValidateAll` is proved equal to it |
| `DynamicForm.ErrorKeys` | src/components/DynamicForm.js:27-65 | a label has an entry exactly when some field with that label fails, so stale entries for fields that now pass are gone |
| `DynamicForm.ErrorsNonEmpty` | src/components/DynamicForm.js:30-63 | every entry of a freshly built error record is a non-empty message |
| `DynamicForm.EntryOfLastFailing` | src/components/DynamicForm.js:30-63 | whether or not labels repeat, a failing field with no later failing field of the same label leaves its label's entry as the message of its own last failing rule |
| `DynamicForm.ErrorOfField` | src/components/DynamicForm.js:30-63 | with unique labels, a field has an entry iff it fails, and the entry is the message of its last failing rule (the unique-label case of `EntryOfLastFailing`) |
| `DynamicForm.NoErrorsIffAllPass` | src/components/DynamicForm.js:27-63 | the built error record is empty iff every field passes |
| `DynamicForm.RequiredMissingReported` | src/components/DynamicForm.js:31-35 | a required field with no entry in the value record always gets an error entry |
| `DynamicForm.UnvalidatedNeverReported` | src/components/DynamicForm.js:32 | a label all of whose fields lack `validation` never gets an entry |
| `FormBuilder.Builder.AddField` | src/components/FormBuilder.js:14-34 | exactly one field is appended at the end, built from the inputs whatever its label, earlier fields keep their values and order, and the inputs are reset |
| `FormBuilder.Builder.RemoveField` | src/components/FormBuilder.js:36-38 | an index in range removes exactly that element keeping the rest in order; any other index leaves the list unchanged |
| `FormBuilder.Builder.constructor` | src/components/FormBuilder.js:6-12 | the inputs start as label `''`, type `'text'`, options `''`, not required, empty bounds and pattern |
| `FormBuilder.Builder.LoadDefaults` | src/components/FormBuilder.js:64-75 | the mount effect replaces the list by the default schema |
| `FormBuilder.RemoveAt` | src/components/FormBuilder.js:36-38 | `filter((_, i) => i !== index)`; `RemoveAtSpec` proves it is the splice in range and the identity otherwise |
| `FormBuilder.RemoveAtSpec` | src/components/FormBuilder.js:36-38 | the index filter equals the splice `fields[..i] + fields[i+1..]` for an index in range and the identity otherwise |
| `FormBuilder.ParseOptions` | src/components/FormBuilder.js:18 | split on commas and trim each piece, for the choice kinds only; `ParseOptionsShape` and `ParseOptionsRoundTrip` state its result |
| `FormBuilder.ParseOptionsShape` | src/components/FormBuilder.js:18 | a choice kind gets commas + 1 options, each comma-free and trimmed; any other kind gets `[]` |
| `FormBuilder.ParseOptionsRoundTrip` | src/components/FormBuilder.js:18 | when no comma-separated piece has space around it, the options joined with commas are the input |
| `FormBuilder.ParseBound` | src/components/FormBuilder.js:21-22 | an empty input is absent and a digit string is its decimal value; `ParseBoundRoundTrip` proves a rendered bound reads back as itself |
| `FormBuilder.ParseBoundRoundTrip` | src/components/FormBuilder.js:21-22 | an empty bound input is absent, and the decimal text of n is read back as n |
| `FormBuilder.NewField` | src/components/FormBuilder.js:15-25 | the field `addField` builds; `NewFieldFacts` states what it keeps and what it drops |
| `FormBuilder.NewFieldFacts` | src/components/FormBuilder.js:14-25 | the built field keeps label and type unchecked, always has `validation` with `required` as given, and an empty bound or pattern input yields an absent rule |
| `FormBuilder.DefaultSchema` | src/components/FormBuilder.js:65-73 | the seven predefined fields; `DefaultSchemaFacts` states their labels, kinds, options and rules |
| `FormBuilder.DefaultSchemaFacts` | src/components/FormBuilder.js:65-73 | seven fields with distinct labels; six required, Hobbies not; only Email and Phone Number have a pattern; the three choice fields have three options each |
| `FieldControl.KindOfName` | src/components/Field.js:7-116 | each of the eight kinds is selected by its own type string and by no other |
| `FieldControl.RenderKnownKinds` | src/components/Field.js:7-116 | exactly the eight known type strings render something, a rendered control is of the kind its type names, and a field with `validation` never throws |
| `FieldControl.OnChange` | src/components/Field.js:7-116 | an edit is reported exactly when a control is rendered and can raise the input; it is reported under the field's label with a string, a sequence (checkbox) or a file (file) |
| `FieldControl.IndexOf` | src/components/Field.js:75 | the first index holding the option, or -1 exactly when it is absent |
| `FieldControl.ToggleOption` | src/components/Field.js:70-81 | the handler's result is `Toggled` of the current selection (empty when the value is not an array) |
| `FieldControl.RemoveFirst` | src/components/Field.js:74-78 | unchecking an absent option changes nothing; otherwise the selection shrinks by one |
| `FieldControl.RemoveFirstSplice` | src/components/Field.js:75-78 | unchecking splices out the first occurrence, keeping the others in order |
| `FieldControl.RemoveFirstMultiset` | src/components/Field.js:74-78 | unchecking removes exactly one copy of the option |
| `FieldControl.ToggleRoundTrip` | src/components/Field.js:70-81 | checking then unchecking an option not selected before restores the selection exactly |
| `FieldControl.Selection` | src/components/Field.js:71 | `Array.isArray(value) ? [...value] : []`; `ToggleFromNonArray` and `ToggleOption` use it |
| `FieldControl.CheckboxChecked` | src/components/Field.js:69 | an option shows as checked iff the value is an array holding it; `CheckedAfterToggle` states it after a toggle |
| `FieldControl.RadioChecked` | src/components/Field.js:97 | an option shows as checked iff the value is that string; `RadioPickChecks` states it after a pick |
| `FieldControl.CheckedAfterToggle` | src/components/Field.js:69-80 | after a toggle the option shows as checked iff it was checked now or it was selected more than once before |
| `FieldControl.ToggleFromNonArray` | src/components/Field.js:71 | a value that is not an array is handled as the empty selection |
| `FieldControl.RadioPickChecks` | src/components/Field.js:97-99 | after picking a radio option, exactly that option shows as checked |
| `FormScenarios.BuiltFieldsRender` | src/components/Field.js:7-116 | every default field renders a control of the kind its type names, and every builder-made field renders without throwing |
| `FormScenarios.BlankDefaultSubmit` | src/components/DynamicForm.js:30-63 | the submit handler, run on the default form with nothing entered, reports Email as "Invalid format.", First Name as required, Hobbies not at all |
| `FormScenarios.EmailPatternScenario` | src/components/DynamicForm.js:55-60 | the submit handler, run with Email "a@b" rejected by the pattern, reports "Invalid format."; run with "a@b.com" accepted, Email has no entry |
| `Text.Split` | src/components/FormBuilder.js:18 | `split(',')` gives separators + 1 pieces, none holding the separator |
| `Text.JoinSplit` | src/components/FormBuilder.js:18 | joining the pieces of a split gives back the string |
| `Text.SplitJoin` | src/components/FormBuilder.js:18 | splitting a join of non-empty, separator-free pieces gives back the pieces |
| `Text.Trim` | src/components/FormBuilder.js:18 | `trim()` leaves no space character at either end |
| `Text.TrimIdempotent` | src/components/FormBuilder.js:18 | trimming twice is trimming once |
| `Text.Join` | src/components/DynamicForm.js:57 | `join(',')`, also how an array becomes the string a pattern tests; `JoinSplit`, `SplitJoin` and `SelectionAsString` relate it to `Split` |
| `Text.NatToString` | src/components/DynamicForm.js:43-52 | a bound rendered in a message is a non-empty string of decimal digits; `DecimalValueOfNatToString` reads it back and `MessageInjective` relies on it |
| `Text.DecimalValue` | src/components/FormBuilder.js:21-22 | `parseInt` on a string of decimal digits; `DecimalValueOfNatToString` proves it inverts `NatToString` |
| `Text.DecimalValueOfNatToString` | src/components/DynamicForm.js:43 | the decimal text of a bound in a message reads back as that bound |

## Left out

- The network submit (the `fetch` POST, `alert`, `console.error`, `setFormData`): I/O and asynchronous. `HandleSubmit` returns whether the request would be made.
- `saveFormConfig` and `loadFormConfig`: browser I/O around `JSON.stringify` and `JSON.parse`, which are library code the model cannot see.
- The regular-expression engine: a parameter `matches`; the Email and Phone Number patterns are not interpreted.
- The browser's own constraint validation. The rendered controls carry `required`, `pattern`, `minLength` and `maxLength` attributes (`src/components/Field.js` lines 13-15, 23-25, 34-35, 44-45, 53, 98, 110), and the form has no `noValidate`. An empty required control or a pattern mismatch can therefore stop the submit before `handleSubmit` runs. `HandleSubmit`, `BlankDefaultSubmit` and `EmailPatternScenario` describe what the handler computes once it runs, not whether the browser lets it run.
- Labels that name a property inherited from `Object.prototype` (`constructor`, `toString`, `__proto__` and the like). The value and error records are plain objects, so reading a missing such key yields the inherited property, and writing `__proto__` does not add an entry. The model's records are maps with no inherited keys. `Schema.ValueOf`, `DynamicForm.ValidateAll`, `DynamicForm.FormSession.HandleChange` and the lemmas about `BuildErrors` hold only for labels that are not such property names.
- FormBuilder.ParseBound and Text.NatToString: bounds are unbounded naturals, while JavaScript numbers are doubles. Above 2^53 `parseInt` rounds, so the exact read-back of `ParseBoundRoundTrip` fails there, and from 10^21 up a template literal renders the bound in exponent form ("1e+21"), unlike `NatToString`.
- `parseInt` beyond digit strings. Leading digits followed by other text, signs, exponents and NaN are not modelled. A non-digit input is read as an absent bound. For NaN this matches how the validator treats it (NaN is falsy). Negative bounds cannot be represented.
- `new RegExp` throwing on an invalid pattern.
- A file input with no file chosen (`e.target.files[0]` undefined).
- React state timing: `handleChange` and `handleSubmit` read the records of the last render, and several updates before a re-render can overwrite each other; the model applies each call to the current state.
- The builder's input `onChange` setters are plain field assignments and are not separate methods. The field list is a prop owned by the application shell (`src/App.js`, not part of this model); here it is a field of `Builder`.
- JSX markup, CSS, the builder's list rendering, the error line display beyond `ShowsError`, and the application shell.
- FieldControl.OnChange: a select or radio input is assumed to report one of the field's options, and a checkbox tick one of its options, as the rendered controls do.

=== FILE: dynamic_form.dfy ===
/**
  The form session (src/components/DynamicForm.js): the value and error
  records, the edit handler that writes one value and blanks that field's
  error, and the submit handler's validation loop.

  The regular-expression engine is not modelled: every operation that tests a
  pattern takes it as a parameter `matches(pattern, text)`, standing for
  `new RegExp(pattern).test(text)`.
 */
module DynamicForm {
  import opened Wrappers
  import opened Text
  import opened Schema

  /** The four rules, in the order the submit handler checks them. */
  datatype Rule = Required | MinLength(bound: nat) | MaxLength(bound: nat) | Pattern

  /** `!value` on a value already defaulted with `|| ""`: only the empty string
      is falsy; an empty selection and a file object are truthy. */
  predicate IsBlank(v: Value) {
    v == Str("")
  }

  /** `value.length`: UTF-16 code units of a string, elements of a selection,
      and `undefined` for a file object. */
  function Length(v: Value): (r: Option<nat>)
    ensures r.None? <==> v.FileH?
    ensures v.Str? ==> |v.text| <= r.value <= 2 * |v.text|
    ensures v.Multi? ==> r.value == |v.items|
  {
    match v
    case Str(s) => Some(Utf16Length(s))
    case Multi(items) => Some(|items|)
    case FileH(_) => None
  }

  /** A character outside the Basic Multilingual Plane counts twice towards a
      length bound: "a" followed by U+1F600 exceeds a maximum of 2, and U+1F600
      alone meets a minimum of 2. */
  lemma AstralCharCountsTwice()
    ensures Length(Str("a\U{1F600}")) == Some(3)
    ensures FailsMaxLength(Rules(false, None, Some(2), None), Str("a\U{1F600}"))
    ensures !FailsMinLength(Rules(false, Some(2), None, None), Str("\U{1F600}"))
  {
    assert IsAstral('\U{1F600}') && !IsAstral('a');
    assert "a\U{1F600}"[1..] == "\U{1F600}";
    assert "\U{1F600}"[1..] == "";
  }

  /** The string `RegExp.prototype.test` converts its argument to: an array
      becomes its elements joined by commas, a file object "[object File]". */
  function AsString(v: Value): string {
    match v
    case Str(s) => s
    case Multi(items) => Join(items, ',')
    case FileH(_) => "[object File]"
  }

  /** A non-empty selection of comma-free options is turned into a string
      from which splitting on commas gives the selection back, so a pattern
      sees every selected option. */
  lemma SelectionAsString(items: seq<string>)
    requires items != [] && forall i :: 0 <= i < |items| ==> ',' !in items[i]
    ensures Split(AsString(Multi(items)), ',') == items
  {
    SplitJoin(items, ',');
  }

  predicate FailsRequired(r: Rules, v: Value) {
    r.required && IsBlank(v)
  }

  /** A bound of 0 is falsy and switches the rule off; a comparison with an
      undefined length is false. */
  predicate FailsMinLength(r: Rules, v: Value) {
    r.minLength.Some? && r.minLength.value != 0 && Length(v).Some? && Length(v).value < r.minLength.value
  }

  predicate FailsMaxLength(r: Rules, v: Value) {
    r.maxLength.Some? && r.maxLength.value != 0 && Length(v).Some? && Length(v).value > r.maxLength.value
  }

  /** An empty pattern is falsy and switches the rule off. */
  predicate FailsPattern(r: Rules, v: Value, matches: (string, string) -> bool) {
    r.pattern.Some? && r.pattern.value != "" && !matches(r.pattern.value, AsString(v))
  }

  /** The rule whose message the submit handler leaves for one field: each
      failing rule overwrites the previous one, so the last failing rule wins.
      A field without `validation` is never checked. */
  function Violation(f: Field, v: Value, matches: (string, string) -> bool): (r: Option<Rule>)
    ensures r.Some? ==> f.validation.Some?
    ensures r == Some(Pattern) <==> f.validation.Some? && FailsPattern(f.validation.value, v, matches)
    ensures r == Some(Required) ==>
      FailsRequired(f.validation.value, v) && !FailsMinLength(f.validation.value, v) && !FailsMaxLength(f.validation.value, v)
  {
    match f.validation
    case None => None
    case Some(r) =>
      var afterRequired := if FailsRequired(r, v) then Some(Required) else None;
      var afterMin := if FailsMinLength(r, v) then Some(MinLength(r.minLength.value)) else afterRequired;
      var afterMax := if FailsMaxLength(r, v) then Some(MaxLength(r.maxLength.value)) else afterMin;
      if FailsPattern(r, v, matches) then Some(Pattern) else afterMax
  }

  /** Every rule the field fails, in checking order: the "report all failing
      rules" reading of the same checks. */
  function FailingRules(f: Field, v: Value, matches: (string, string) -> bool): seq<Rule> {
    match f.validation
    case None => []
    case Some(r) =>
      (if FailsRequired(r, v) then [Required] else [])
      + (if FailsMinLength(r, v) then [MinLength(r.minLength.value)] else [])
      + (if FailsMaxLength(r, v) then [MaxLength(r.maxLength.value)] else [])
      + (if FailsPattern(r, v, matches) then [Pattern] else [])
  }

  /** The message kept is the one of the last rule in the list of failing
      rules, and there is none iff no rule fails. */
  lemma LastFailingRuleWins(f: Field, v: Value, matches: (string, string) -> bool)
    ensures Violation(f, v, matches) == None <==> FailingRules(f, v, matches) == []
    ensures FailingRules(f, v, matches) != [] ==>
      Violation(f, v, matches) == Some(FailingRules(f, v, matches)[|FailingRules(f, v, matches)| - 1])
  {
  }

  /** A field with no `validation` never fails. */
  lemma NoRulesNoViolation(f: Field, v: Value, matches: (string, string) -> bool)
    requires f.validation.None?
    ensures Violation(f, v, matches) == None && FailingRules(f, v, matches) == []
  {
  }

  /** A required field left empty always fails some rule, and its message is
      "Invalid format." exactly when it also has a pattern the empty string
      does not match. */
  lemma RequiredBlankFails(f: Field, matches: (string, string) -> bool)
    requires f.validation.Some? && f.validation.value.required
    ensures Violation(f, Str(""), matches).Some?
    ensures Violation(f, Str(""), matches) == Some(Pattern) <==> FailsPattern(f.validation.value, Str(""), matches)
  {
  }

  /** An empty checkbox selection is truthy, so `required` never rejects it. */
  lemma EmptySelectionPassesRequired(r: Rules)
    ensures !FailsRequired(r, Multi([]))
  {
  }

  /** Boundary law for a minimum length m > 0: length m passes, length m - 1
      fails, for strings and selections alike. */
  lemma MinLengthBoundary(r: Rules, m: nat, atBound: Value, below: Value)
    requires r.minLength == Some(m) && m > 0
    requires Length(atBound) == Some(m)
    requires Length(below) == Some(m - 1)
    ensures !FailsMinLength(r, atBound) && FailsMinLength(r, below)
  {
  }

  /** Boundary law for a maximum length M > 0: length M passes, length M + 1 fails. */
  lemma MaxLengthBoundary(r: Rules, m: nat, atBound: Value, above: Value)
    requires r.maxLength == Some(m) && m > 0
    requires Length(atBound) == Some(m)
    requires Length(above) == Some(m + 1)
    ensures !FailsMaxLength(r, atBound) && FailsMaxLength(r, above)
  {
  }

  /** A bound of 0, an absent bound and a file value are never checked. */
  lemma UncheckedBounds(r: Rules, v: Value)
    ensures r.minLength in {None, Some(0)} || v.FileH? ==> !FailsMinLength(r, v)
    ensures r.maxLength in {None, Some(0)} || v.FileH? ==> !FailsMaxLength(r, v)
  {
  }

  /** The text the submit handler stores for a failing rule. */
  function Message(rule: Rule): (r: string)
    ensures r != ""
  {
    match rule
    case Required => "This field is required."
    case MinLength(m) => "Minimum length is " + NatToString(m) + " characters."
    case MaxLength(m) => "Maximum length is " + NatToString(m) + " characters."
    case Pattern => "Invalid format."
  }

  /** Every message is non-empty (so it is shown), and different rules give
      different messages: the stored text tells which rule failed. */
  lemma MessageInjective(a: Rule, b: Rule)
    ensures Message(a) != ""
    ensures Message(a) == Message(b) ==> a == b
  {
    if Message(a) == Message(b) {
      var ma, mb := Message(a), Message(b);
      assert ma[0] == mb[0] && ma[1] == mb[1];
      match a
      case MinLength(m) =>
        BoundInMessage("Minimum length is ", m, b.bound);
      case MaxLength(m) =>
        BoundInMessage("Maximum length is ", m, b.bound);
      case _ =>
    }
  }

  /** Two messages around the same prefix agree only when the bounds agree. */
  lemma BoundInMessage(prefix: string, m: nat, n: nat)
    requires prefix + NatToString(m) + " characters." == prefix + NatToString(n) + " characters."
    ensures m == n
  {
    var s := prefix + NatToString(m) + " characters.";
    var dm, dn := NatToString(m), NatToString(n);
    assert |dm| == |dn|;
    assert dm == s[|prefix|..|prefix| + |dm|];
    assert dn == s[|prefix|..|prefix| + |dn|];
    NatToStringInjective(m, n);
  }

  /** Does a field fail, given the value record? */
  predicate FieldFails(f: Field, values: Values, matches: (string, string) -> bool) {
    Violation(f, ValueOf(values, f.name), matches).Some?
  }

  /** The error record the submit handler builds: fields in order, each
      failing field writing its message under its label. */
  function BuildErrors(fields: seq<Field>, values: Values, matches: (string, string) -> bool): Errors {
    if fields == [] then map[]
    else
      var f := fields[|fields| - 1];
      var errors := BuildErrors(fields[..|fields| - 1], values, matches);
      match Violation(f, ValueOf(values, f.name), matches)
      case None => errors
      case Some(rule) => errors[f.name := Message(rule)]
  }

  /** A label has an entry iff some field with that label fails: an entry
      left from an earlier submit for a field that now passes is gone. */
  lemma {:induction false} ErrorKeys(fields: seq<Field>, values: Values, matches: (string, string) -> bool, key: string)
    ensures key in BuildErrors(fields, values, matches) <==>
      exists i :: 0 <= i < |fields| && fields[i].name == key && FieldFails(fields[i], values, matches)
  {
    if fields != [] {
      var init := fields[..|fields| - 1];
      ErrorKeys(init, values, matches, key);
      if key in BuildErrors(init, values, matches) {
        var i :| 0 <= i < |init| && init[i].name == key && FieldFails(init[i], values, matches);
        assert fields[i] == init[i];
      }
      if exists i :: 0 <= i < |fields| && fields[i].name == key && FieldFails(fields[i], values, matches) {
        var i :| 0 <= i < |fields| && fields[i].name == key && FieldFails(fields[i], values, matches);
        if i < |init| {
          assert init[i] == fields[i];
        }
      }
    }
  }

  /** Every stored message is non-empty. */
  lemma {:induction false} ErrorsNonEmpty(fields: seq<Field>, values: Values, matches: (string, string) -> bool, key: string)
    requires key in BuildErrors(fields, values, matches)
    ensures BuildErrors(fields, values, matches)[key] != ""
  {
    var f := fields[|fields| - 1];
    var init := fields[..|fields| - 1];
    match Violation(f, ValueOf(values, f.name), matches)
    case None =>
      ErrorsNonEmpty(init, values, matches, key);
    case Some(rule) =>
      if key != f.name {
        ErrorsNonEmpty(init, values, matches, key);
      }
  }

  /** With labels shared or not, a label's entry is the message of the last
      failing field carrying it: a later failing field with the same label
      overwrites it, a later passing one leaves it alone. */
  lemma {:induction false} EntryOfLastFailing(fields: seq<Field>, values: Values, matches: (string, string) -> bool, j: nat)
    requires j < |fields| && FieldFails(fields[j], values, matches)
    requires forall k :: j < k < |fields| && fields[k].name == fields[j].name ==> !FieldFails(fields[k], values, matches)
    ensures fields[j].name in BuildErrors(fields, values, matches)
    ensures BuildErrors(fields, values, matches)[fields[j].name]
      == Message(Violation(fields[j], ValueOf(values, fields[j].name), matches).value)
  {
    var init := fields[..|fields| - 1];
    if j < |fields| - 1 {
      assert init[j] == fields[j];
      EntryOfLastFailing(init, values, matches, j);
      assert !FieldFails(fields[|fields| - 1], values, matches) || fields[|fields| - 1].name != fields[j].name;
    }
  }

  /** With unique labels, a field has an entry iff it fails, and the entry is
      the message of its last failing rule. */
  lemma ErrorOfField(fields: seq<Field>, values: Values, matches: (string, string) -> bool, i: nat)
    requires UniqueLabels(fields) && i < |fields|
    ensures fields[i].name in BuildErrors(fields, values, matches) <==> FieldFails(fields[i], values, matches)
    ensures FieldFails(fields[i], values, matches) ==>
      BuildErrors(fields, values, matches)[fields[i].name]
        == Message(Violation(fields[i], ValueOf(values, fields[i].name), matches).value)
  {
    ErrorKeys(fields, values, matches, fields[i].name);
    if FieldFails(fields[i], values, matches) {
      EntryOfLastFailing(fields, values, matches, i);
    }
  }

  /** There are no errors iff every field passes. */
  lemma NoErrorsIffAllPass(fields: seq<Field>, values: Values, matches: (string, string) -> bool)
    ensures BuildErrors(fields, values, matches) == map[] <==>
      forall i :: 0 <= i < |fields| ==> !FieldFails(fields[i], values, matches)
  {
    var errors := BuildErrors(fields, values, matches);
    if errors == map[] {
      forall i | 0 <= i < |fields|
        ensures !FieldFails(fields[i], values, matches)
      {
        ErrorKeys(fields, values, matches, fields[i].name);
      }
    } else {
      var key :| key in errors;
      ErrorKeys(fields, values, matches, key);
    }
  }

  /** A required field with no entry in the value record always has an
      error entry. */
  lemma RequiredMissingReported(fields: seq<Field>, values: Values, matches: (string, string) -> bool, i: nat)
    requires i < |fields| && fields[i].validation.Some? && fields[i].validation.value.required
    requires fields[i].name !in values
    ensures fields[i].name in BuildErrors(fields, values, matches)
  {
    RequiredBlankFails(fields[i], matches);
    ErrorKeys(fields, values, matches, fields[i].name);
  }

  /** A label whose fields all lack `validation` never gets an entry. */
  lemma UnvalidatedNeverReported(fields: seq<Field>, values: Values, matches: (string, string) -> bool, key: string)
    requires forall i :: 0 <= i < |fields| && fields[i].name == key ==> fields[i].validation.None?
    ensures key !in BuildErrors(fields, values, matches)
  {
    ErrorKeys(fields, values, matches, key);
  }

  /** The body of the validation loop for one field: run the four checks in
      order, overwrite the field's entry with every failing rule's message,
      and report whether any rule failed. */
  method ValidateField(field: Field, value: Value, matches: (string, string) -> bool, errors: Errors)
    returns (newErrors: Errors, failed: bool)
    ensures failed <==> Violation(field, value, matches).Some?
    ensures newErrors == if failed then errors[field.name := Message(Violation(field, value, matches).value)] else errors
  {
    newErrors, failed := errors, false;
    if field.validation.Some? {
      var rules := field.validation.value;
      if FailsRequired(rules, value) {
        newErrors := newErrors[field.name := Message(Required)];
        failed := true;
      }
      if FailsMinLength(rules, value) {
        newErrors := newErrors[field.name := Message(MinLength(rules.minLength.value))];
        failed := true;
      }
      if FailsMaxLength(rules, value) {
        newErrors := newErrors[field.name := Message(MaxLength(rules.maxLength.value))];
        failed := true;
      }
      if FailsPattern(rules, value, matches) {
        newErrors := newErrors[field.name := Message(Pattern)];
        failed := true;
      }
    }
  }

  /** The validation loop of the submit handler: walk the fields in order,
      run the four checks on each, and clear `valid` when one fails. */
  method ValidateAll(fields: seq<Field>, values: Values, matches: (string, string) -> bool)
    returns (errors: Errors, valid: bool)
    ensures errors == BuildErrors(fields, values, matches)
    ensures valid <==> errors == map[]
  {
    errors := map[];
    valid := true;
    for i := 0 to |fields|
      invariant errors == BuildErrors(fields[..i], values, matches)
      invariant valid <==> errors == map[]
    {
      var failed;
      errors, failed := ValidateField(fields[i], ValueOf(values, fields[i].name), matches, errors);
      if failed {
        valid := false;
        assert fields[i].name in errors;
      }
      assert fields[..i + 1][..i] == fields[..i];
    }
    assert fields[..|fields|] == fields;
  }

  /** The live state of one form: the value record and the error record. */
  class FormSession {
    var values: Values
    var errors: Errors

    constructor ()
      ensures values == map[] && errors == map[]
    {
      values := map[];
      errors := map[];
    }

    /** `errors[key]` is truthy: the error line under the field is shown. */
    predicate ShowsError(key: string)
      reads this
    {
      key in errors && errors[key] != ""
    }

    /** `handleChange`: store the new value under its key; blank a shown
        error for that key to "" and touch no other entry. */
    method HandleChange(key: string, value: Value)
      modifies this
      ensures values == old(values)[key := value]
      ensures errors == if old(ShowsError(key)) then old(errors)[key := ""] else old(errors)
      // The last two clauses follow from the one above; they say in terms of
      // the shown error lines what the edit does to them.
      ensures !ShowsError(key)
      ensures forall k :: k != key ==> (ShowsError(k) <==> old(ShowsError(k)))
    {
      values := values[key := value];
      if ShowsError(key) {
        errors := errors[key := ""];
      }
    }

    /** `handleSubmit` up to the request: replace the error record wholesale
        by the freshly built one and answer whether the values are sent. */
    method HandleSubmit(fields: seq<Field>, matches: (string, string) -> bool) returns (submit: bool)
      modifies this`errors
      ensures errors == BuildErrors(fields, values, matches)
      ensures submit <==> forall i :: 0 <= i < |fields| ==> !FieldFails(fields[i], values, matches)
    {
      var newErrors, valid := ValidateAll(fields, values, matches);
      errors := newErrors;
      submit := valid;
      NoErrorsIffAllPass(fields, values, matches);
    }
  }
}

=== FILE: field.dfy ===
/**
  The field control (src/components/Field.js): the switch on a field's `type`
  that picks a control, the value each control reports through
  `onChange(field.label, value)`, the checkbox toggle and the "checked" tests.
 */
module FieldControl {
  import opened Wrappers
  import opened Schema

  /** The eight kinds the switch has a case for. */
  datatype Kind = Text | TextArea | Email | Tel | Dropdown | Checkbox | Radio | File

  /** The `type` string of each case label. */
  function Name(k: Kind): string {
    match k
    case Text => "text"
    case TextArea => "textarea"
    case Email => "email"
    case Tel => "tel"
    case Dropdown => "dropdown"
    case Checkbox => "checkbox"
    case Radio => "radio"
    case File => "file"
  }

  /** The case that handles a `type` string; `None` is the `default` branch. */
  function KindOf(t: string): (r: Option<Kind>)
    ensures r.Some? ==> Name(r.value) == t
  {
    if t == "text" then Some(Text)
    else if t == "textarea" then Some(TextArea)
    else if t == "email" then Some(Email)
    else if t == "tel" then Some(Tel)
    else if t == "dropdown" then Some(Dropdown)
    else if t == "checkbox" then Some(Checkbox)
    else if t == "radio" then Some(Radio)
    else if t == "file" then Some(File)
    else None
  }

  /** Every kind is reached by its own name and by no other string. */
  lemma KindOfName(k: Kind, t: string)
    ensures KindOf(Name(k)) == Some(k)
    ensures KindOf(t) == Some(k) <==> t == Name(k)
  {
  }

  /** What `renderField` produces: nothing (the `default` branch), a control of
      one kind, or a TypeError: reading `field.validation.required` throws when
      `validation` is absent. The text-like cases, the select and the file
      input read it once; the radio group reads it once per option, so a radio
      group without options never reads it; the checkbox group never does. */
  datatype Rendered = Nothing | Control(kind: Kind) | TypeError

  function Render(f: Field): (r: Rendered)
    ensures r.Control? ==> Name(r.kind) == f.kind
    ensures r == TypeError <==> KindOf(f.kind).Some? && f.validation.None? && ReadsValidation(KindOf(f.kind).value, f)
  {
    match KindOf(f.kind)
    case None => Nothing
    case Some(k) => if f.validation.None? && ReadsValidation(k, f) then TypeError else Control(k)
  }

  /** Whether rendering a control of kind `k` for `f` evaluates
      `field.validation.required`. */
  predicate ReadsValidation(k: Kind, f: Field) {
    match k
    case Checkbox => false
    case Radio => f.options != []
    case _ => true
  }

  /** A radio group with no options renders, empty, even without `validation`;
      with an option it throws. */
  lemma EmptyRadioRenders(name: string, option: string)
    ensures Render(Field(name, "radio", [], None)) == Control(Radio)
    ensures Render(Field(name, "radio", [option], None)) == TypeError
  {
  }

  /** Exactly the eight known type strings render something. */
  lemma RenderKnownKinds(f: Field)
    ensures Render(f) == Nothing <==>
      f.kind !in {"text", "textarea", "email", "tel", "dropdown", "checkbox", "radio", "file"}
    ensures Render(f).Control? ==> Name(Render(f).kind) == f.kind
    ensures f.validation.Some? ==> Render(f) != TypeError
  {
  }

  /** The shape of a value: a string, a sequence of strings, or a file handle. */
  datatype Shape = Single | Many | Handle

  function ShapeOf(v: Value): Shape {
    match v
    case Str(_) => Single
    case Multi(_) => Many
    case FileH(_) => Handle
  }

  /** The shape each kind writes: a sequence for checkbox, a file for file,
      a string for all others. */
  function ShapeFor(k: Kind): Shape {
    match k
    case Checkbox => Many
    case File => Handle
    case _ => Single
  }

  /** A DOM change event as the handlers read it: the new `e.target.value`, a
      checkbox option with its new `checked` state, or `e.target.files[0]`. */
  datatype Input = Typed(text: string) | Ticked(option: string, checked: bool) | Chosen(file: nat)

  /** The `onChange(name, value)` call a handler makes. */
  datatype Edit = Edit(key: string, value: Value)

  /** Whether a control of kind `k` for field `f` can raise `input`: text-like
      controls raise any text, a select or radio group one of the options, a
      checkbox group a tick on one of the options, a file input a file. */
  predicate Raises(f: Field, k: Kind, input: Input) {
    match k
    case Text | TextArea | Email | Tel => input.Typed?
    case Dropdown | Radio => input.Typed? && input.text in f.options
    case Checkbox => input.Ticked? && input.option in f.options
    case File => input.Chosen?
  }

  /** The edit a rendered field reports for an input, given the value it was
      rendered with; `None` when nothing was rendered or the control cannot
      raise that input. */
  function OnChange(f: Field, current: Value, input: Input): (e: Option<Edit>)
    ensures e.Some? <==> Render(f).Control? && Raises(f, Render(f).kind, input)
    ensures e.Some? ==> e.value.key == f.name
    ensures e.Some? ==> ShapeOf(e.value.value) == ShapeFor(Render(f).kind)
  {
    match Render(f)
    case Control(k) =>
      if !Raises(f, k, input) then None
      else (
        match input
        case Typed(text) => Some(Edit(f.name, Str(text)))
        case Ticked(option, checked) => Some(Edit(f.name, Multi(Toggled(Selection(current), option, checked))))
        case Chosen(file) => Some(Edit(f.name, FileH(file)))
      )
    case _ => None
  }

  /** `Array.isArray(value) ? [...value] : []`: the selection a checkbox handler starts from. */
  function Selection(v: Value): seq<string> {
    if v.Multi? then v.items else []
  }

  /** A checkbox option shows as checked iff the value is an array holding it. */
  predicate CheckboxChecked(v: Value, option: string) {
    v.Multi? && option in v.items
  }

  /** A radio option shows as checked iff the value is that very string. */
  predicate RadioChecked(v: Value, option: string) {
    v == Str(option)
  }

  /** The selection without the first occurrence of `x`. */
  function RemoveFirst(s: seq<string>, x: string): (r: seq<string>)
    ensures x !in s ==> r == s
    ensures x in s ==> |r| == |s| - 1
  {
    if s == [] then []
    else if s[0] == x then s[1..]
    else [s[0]] + RemoveFirst(s[1..], x)
  }

  /** The selection a checkbox handler reports: the option appended on check,
      its first occurrence removed on uncheck. */
  function Toggled(sel: seq<string>, option: string, checked: bool): (r: seq<string>)
    ensures multiset(r) == if checked then multiset(sel) + multiset{option} else multiset(sel) - multiset{option}
  {
    RemoveFirstMultiset(sel, option);
    if checked then sel + [option] else RemoveFirst(sel, option)
  }

  /** `xs.indexOf(x)`: the first index holding `x`, or -1. */
  method IndexOf(xs: seq<string>, x: string) returns (i: int)
    ensures -1 <= i < |xs|
    ensures i == -1 <==> x !in xs
    ensures 0 <= i ==> xs[i] == x && x !in xs[..i]
  {
    i := 0;
    while i < |xs|
      invariant 0 <= i <= |xs|
      invariant x !in xs[..i]
    {
      if xs[i] == x {
        return;
      }
      i := i + 1;
    }
    assert xs[..i] == xs;
    i := -1;
  }

  /** The checkbox `onChange` handler: copy the current selection (or start
      from an empty one), then push the option or splice out its first
      occurrence. The caller's value is a value and is left as it was. */
  method ToggleOption(current: Value, option: string, checked: bool) returns (newValue: seq<string>)
    ensures newValue == Toggled(Selection(current), option, checked)
  {
    newValue := if current.Multi? then current.items else [];
    if checked {
      newValue := newValue + [option];
    } else {
      var optionIndex := IndexOf(newValue, option);
      if optionIndex > -1 {
        RemoveFirstSplice(newValue, option, optionIndex);
        newValue := newValue[..optionIndex] + newValue[optionIndex + 1..];
      }
    }
  }

  /** Removing the first occurrence is a splice at the first index holding it:
      the other elements keep their order. */
  lemma {:induction false} RemoveFirstSplice(s: seq<string>, x: string, k: nat)
    requires k < |s| && s[k] == x && x !in s[..k]
    ensures RemoveFirst(s, x) == s[..k] + s[k + 1..]
  {
    if k > 0 {
      assert s[1..][..k - 1] == s[1..k];
      RemoveFirstSplice(s[1..], x, k - 1);
      assert s[..k] == [s[0]] + s[1..k];
      assert s[k + 1..] == s[1..][k..];
    }
  }

  /** Unchecking takes exactly one copy of the option out of the selection. */
  lemma {:induction false} RemoveFirstMultiset(s: seq<string>, x: string)
    ensures multiset(RemoveFirst(s, x)) == multiset(s) - multiset{x}
  {
    if s != [] {
      assert s == [s[0]] + s[1..];
      if s[0] != x {
        RemoveFirstMultiset(s[1..], x);
      }
    }
  }

  /** Checking an option that was not selected and then unchecking it gives
      back the original selection. */
  lemma {:induction false} ToggleRoundTrip(sel: seq<string>, option: string)
    requires option !in sel
    ensures Toggled(Toggled(sel, option, true), option, false) == sel
  {
    RemoveFirstSplice(sel + [option], option, |sel|);
    assert (sel + [option])[..|sel|] == sel;
  }

  /** After a toggle, the option shows as checked iff it was checked now or
      it was selected more than once before. */
  lemma CheckedAfterToggle(sel: seq<string>, option: string, checked: bool)
    ensures CheckboxChecked(Multi(Toggled(sel, option, checked)), option) <==>
      checked || multiset(sel)[option] > 1
  {
    var r := Toggled(sel, option, checked);
    if checked {
      assert r[|sel|] == option;
      assert multiset(sel)[option] > 1 ==> option in sel;
    } else {
      RemoveFirstMultiset(sel, option);
      assert option in r <==> multiset(r)[option] > 0;
    }
  }

  /** A handler given a value that is not an array starts from the empty
      selection. */
  lemma ToggleFromNonArray(current: Value, option: string)
    requires !current.Multi?
    ensures Toggled(Selection(current), option, true) == [option]
    ensures Toggled(Selection(current), option, false) == []
  {
  }

  /** After picking a radio option, exactly that option shows as checked. */
  lemma RadioPickChecks(f: Field, current: Value, picked: string, other: string)
    requires Render(f) == Control(Radio) && picked in f.options
    ensures OnChange(f, current, Typed(picked)).Some?
    ensures RadioChecked(OnChange(f, current, Typed(picked)).value.value, other) <==> other == picked
  {
  }
}

=== FILE: form_builder.dfy ===
/**
  The form builder (src/components/FormBuilder.js): the builder's input
  strings, the field list they are turned into, appending and removing
  fields, and the built-in seven-field default schema.
 */
module FormBuilder {
  import opened Wrappers
  import opened Text
  import opened Schema

  /** The kinds whose options input is read: dropdown, radio and checkbox. */
  predicate IsChoice(kind: string) {
    kind == "dropdown" || kind == "radio" || kind == "checkbox"
  }

  /** `options.split(',').map(option => option.trim())` for a choice kind, `[]` otherwise. */
  function ParseOptions(kind: string, input: string): seq<string> {
    if IsChoice(kind) then
      var pieces := Split(input, ',');
      seq(|pieces|, i requires 0 <= i < |pieces| => Trim(pieces[i]))
    else []
  }

  /** A choice kind gets one option per comma plus one, each without commas
      and without space at either end; any other kind gets none. */
  lemma ParseOptionsShape(kind: string, input: string)
    ensures !IsChoice(kind) ==> ParseOptions(kind, input) == []
    ensures IsChoice(kind) ==> |ParseOptions(kind, input)| == multiset(input)[','] + 1
    ensures forall i :: 0 <= i < |ParseOptions(kind, input)| ==>
      ',' !in ParseOptions(kind, input)[i] && IsTrimmed(ParseOptions(kind, input)[i])
  {
    var options := ParseOptions(kind, input);
    if IsChoice(kind) {
      var pieces := Split(input, ',');
      forall i | 0 <= i < |options|
        ensures ',' !in options[i]
      {
        if ',' in options[i] {
          TrimKeepsChars(pieces[i], ',');
        }
      }
    }
  }

  /** Every character left by a trim was in the string. */
  lemma TrimKeepsChars(s: string, c: char)
    requires c in Trim(s)
    ensures c in s
  {
    var t := TrimStart(s);
    var r := TrimEnd(t);
    var k :| 0 <= k < |r| && r[k] == c;
    assert t[k] == c;
    assert s[|s| - |t| + k] == c;
  }

  /** When no comma-separated piece has space around it, joining the options
      with commas gives back the input. */
  lemma ParseOptionsRoundTrip(kind: string, input: string)
    requires IsChoice(kind)
    requires forall i :: 0 <= i < |Split(input, ',')| ==> IsTrimmed(Split(input, ',')[i])
    ensures Join(ParseOptions(kind, input), ',') == input
  {
    var pieces := Split(input, ',');
    forall i | 0 <= i < |pieces|
      ensures Trim(pieces[i]) == pieces[i]
    {
      TrimmedIsFixed(pieces[i]);
    }
    assert ParseOptions(kind, input) == pieces;
    JoinSplit(input, ',');
  }

  /** `minLength ? parseInt(minLength) : undefined` on the text of a number
      input: an empty input is absent, a digit string is its value. */
  function ParseBound(input: string): Option<nat> {
    if input == "" then None
    else if AllDigits(input) then Some(DecimalValue(input))
    else None
  }

  /** An empty input gives no bound, and a bound typed as its decimal
      rendering is read back as itself. */
  lemma ParseBoundRoundTrip(n: nat)
    ensures ParseBound("") == None
    ensures ParseBound(NatToString(n)) == Some(n)
  {
    DecimalValueOfNatToString(n);
  }

  /** The field `addField` builds from the builder's inputs. */
  function NewField(name: string, kind: string, options: string, required: bool,
                    minLength: string, maxLength: string, pattern: string): Field {
    Field(name, kind, ParseOptions(kind, options),
          Some(Rules(required, ParseBound(minLength), ParseBound(maxLength),
                     if pattern == "" then None else Some(pattern))))
  }

  /** A built field keeps the label and type as typed (no check that the
      label is new or non-empty), always has a `validation` object with
      `required` as ticked, and has no bound or pattern whose input was empty. */
  lemma NewFieldFacts(name: string, kind: string, options: string, required: bool,
                      minLength: string, maxLength: string, pattern: string)
    ensures var f := NewField(name, kind, options, required, minLength, maxLength, pattern);
      && f.name == name && f.kind == kind
      && f.validation.Some? && f.validation.value.required == required
      && (minLength == "" ==> f.validation.value.minLength.None?)
      && (maxLength == "" ==> f.validation.value.maxLength.None?)
      && (f.validation.value.pattern.None? <==> pattern == "")
      && (f.validation.value.pattern.Some? ==> f.validation.value.pattern.value == pattern)
  {
  }

  /** `list.filter((_, i) => i !== index)` where the first element of `s`
      sits at position `from` of the list. */
  function Filter(s: seq<Field>, index: int, from: int): seq<Field> {
    if s == [] then []
    else (if from == index then [] else [s[0]]) + Filter(s[1..], index, from + 1)
  }

  /** `removeField(index)`. */
  function RemoveAt(fields: seq<Field>, index: int): seq<Field> {
    Filter(fields, index, 0)
  }

  lemma {:induction false} FilterSplice(s: seq<Field>, index: int, from: int)
    ensures from <= index < from + |s| ==> Filter(s, index, from) == s[..index - from] + s[index - from + 1..]
    ensures !(from <= index < from + |s|) ==> Filter(s, index, from) == s
  {
    if s != [] {
      FilterSplice(s[1..], index, from + 1);
      if from == index {
        assert s[..0] == [];
      } else if from < index < from + |s| {
        assert s[..index - from] == [s[0]] + s[1..][..index - from - 1];
        assert s[index - from + 1..] == s[1..][index - from..];
      } else {
        assert [s[0]] + s[1..] == s;
      }
    }
  }

  /** Removing at an index in range drops exactly that element and keeps the
      others in order; an index out of range leaves the list as it was. */
  lemma RemoveAtSpec(fields: seq<Field>, index: int)
    ensures 0 <= index < |fields| ==> RemoveAt(fields, index) == fields[..index] + fields[index + 1..]
    ensures !(0 <= index < |fields|) ==> RemoveAt(fields, index) == fields
  {
    FilterSplice(fields, index, 0);
  }

  /** The Email pattern of the default schema. */
  const EmailPattern: string := "^[^\\s@]+@[^\\s@]+\\.[^\\s@]+$"

  /** The Phone Number pattern of the default schema. */
  const PhonePattern: string := "^\\d{10}$"

  /** `validation: { required: true }`. */
  function RequiredOnly(): Option<Rules> {
    Some(Rules(true, None, None, None))
  }

  /** The seven fields the builder seeds the list with. */
  function DefaultSchema(): seq<Field> {
    [ Field("First Name", "text", [], RequiredOnly()),
      Field("Last Name", "text", [], RequiredOnly()),
      Field("Email", "email", [], Some(Rules(true, None, None, Some(EmailPattern)))),
      Field("Phone Number", "tel", [], Some(Rules(true, None, None, Some(PhonePattern)))),
      Field("Subject", "dropdown", ["Math", "Science", "English"], RequiredOnly()),
      Field("Gender", "radio", ["Male", "Female", "other"], RequiredOnly()),
      Field("Hobbies", "checkbox", ["Read", "write", "play"], Some(Rules(false, None, None, None))) ]
  }

  /** Seven fields with distinct labels, all with a `validation` object; all
      but Hobbies are required; only Email and Phone Number have a pattern;
      the last three are the choice fields, with three options each. */
  lemma DefaultSchemaFacts()
    ensures |DefaultSchema()| == 7 && UniqueLabels(DefaultSchema())
    ensures forall i :: 0 <= i < 7 ==> DefaultSchema()[i].validation.Some?
    ensures forall i :: 0 <= i < 7 ==>
      (DefaultSchema()[i].validation.value.required <==> DefaultSchema()[i].name != "Hobbies")
    ensures forall i :: 0 <= i < 7 ==>
      (DefaultSchema()[i].validation.value.pattern.Some? <==> DefaultSchema()[i].name in {"Email", "Phone Number"})
    ensures forall i :: 0 <= i < 7 ==> (IsChoice(DefaultSchema()[i].kind) <==> 4 <= i)
    ensures forall i :: 0 <= i < 7 ==> |DefaultSchema()[i].options| == if 4 <= i then 3 else 0
    ensures forall i :: 0 <= i < 7 ==>
      DefaultSchema()[i].validation.value.minLength.None? && DefaultSchema()[i].validation.value.maxLength.None?
  {
    var d := DefaultSchema();
    assert d[0].name == "First Name" && d[1].name == "Last Name" && d[2].name == "Email";
    assert d[3].name == "Phone Number" && d[4].name == "Subject" && d[5].name == "Gender";
    assert d[6].name == "Hobbies";
  }

  /** The builder: its input strings and the field list it edits. */
  class Builder {
    var fieldLabel: string
    var fieldType: string
    var options: string
    var required: bool
    var minLength: string
    var maxLength: string
    var pattern: string
    var fields: seq<Field>

    /** The inputs as they start and as `addField` leaves them. */
    predicate Pristine()
      reads this
    {
      && fieldLabel == "" && fieldType == "text" && options == "" && !required
      && minLength == "" && maxLength == "" && pattern == ""
    }

    constructor ()
      ensures Pristine() && fields == []
    {
      fieldLabel, fieldType, options, required := "", "text", "", false;
      minLength, maxLength, pattern := "", "", "";
      fields := [];
    }

    /** The mount effect: replace the list by the default schema. */
    method LoadDefaults()
      modifies this`fields
      ensures fields == DefaultSchema()
    {
      fields := DefaultSchema();
    }

    /** `addField`: append the field built from the inputs, whatever its label,
        then reset the inputs. */
    method AddField()
      modifies this
      ensures |fields| == |old(fields)| + 1 && fields[..|old(fields)|] == old(fields)
      ensures fields[|old(fields)|] == NewField(old(fieldLabel), old(fieldType), old(options), old(required),
                                                old(minLength), old(maxLength), old(pattern))
      ensures Pristine()
    {
      var newField := NewField(fieldLabel, fieldType, options, required, minLength, maxLength, pattern);
      fields := fields + [newField];
      fieldLabel := "";
      fieldType := "text";
      options := "";
      required := false;
      minLength := "";
      maxLength := "";
      pattern := "";
    }

    /** `removeField(index)`: drop the field at `index`, if there is one. */
    method RemoveField(index: int)
      modifies this`fields
      ensures fields == RemoveAt(old(fields), index)
      ensures 0 <= index < |old(fields)| ==> fields == old(fields)[..index] + old(fields)[index + 1..]
      ensures !(0 <= index < |old(fields)|) ==> fields == old(fields)
    {
      RemoveAtSpec(fields, index);
      fields := RemoveAt(fields, index);
    }
  }
}

=== FILE: scenarios.dfy ===
/**
  The builder's default schema run through the renderer and the validator.
 */
module FormScenarios {
  import opened Schema
  import opened FieldControl
  import opened DynamicForm
  import opened FormBuilder

  /** Every default field renders a control of the kind its type names, and
      every field `addField` builds renders without throwing. */
  lemma BuiltFieldsRender(name: string, kind: string, options: string, required: bool,
                          minLength: string, maxLength: string, pattern: string)
    ensures forall i :: 0 <= i < |DefaultSchema()| ==>
      Render(DefaultSchema()[i]).Control? && Name(Render(DefaultSchema()[i]).kind) == DefaultSchema()[i].kind
    ensures Render(NewField(name, kind, options, required, minLength, maxLength, pattern)) != TypeError
  {
    DefaultSchemaFacts();
    forall i | 0 <= i < |DefaultSchema()|
      ensures Render(DefaultSchema()[i]).Control? && Name(Render(DefaultSchema()[i]).kind) == DefaultSchema()[i].kind
    {
      RenderKnownKinds(DefaultSchema()[i]);
    }
    RenderKnownKinds(NewField(name, kind, options, required, minLength, maxLength, pattern));
  }

  /** The submit handler run on the default form with nothing entered: an
      empty Email is reported as "Invalid format." (the pattern check
      overwrites the required one), First Name as required, and Hobbies not
      at all. */
  lemma BlankDefaultSubmit(matches: (string, string) -> bool)
    requires !matches(EmailPattern, "")
    ensures var errors := BuildErrors(DefaultSchema(), map[], matches);
      && "Email" in errors && errors["Email"] == "Invalid format."
      && "First Name" in errors && errors["First Name"] == "This field is required."
      && "Hobbies" !in errors
  {
    DefaultSchemaFacts();
    var d := DefaultSchema();
    ErrorOfField(d, map[], matches, 0);
    ErrorOfField(d, map[], matches, 2);
    ErrorOfField(d, map[], matches, 6);
  }

  /** The submit handler run with "a@b" in the Email field, which the pattern
      rejects, reports "Invalid format."; with "a@b.com", which it accepts,
      Email has no entry. */
  lemma EmailPatternScenario(matches: (string, string) -> bool, values: Values)
    requires "Email" in values
    ensures values["Email"] == Str("a@b") && !matches(EmailPattern, "a@b") ==>
      && "Email" in BuildErrors(DefaultSchema(), values, matches)
      && BuildErrors(DefaultSchema(), values, matches)["Email"] == "Invalid format."
    ensures values["Email"] == Str("a@b.com") && matches(EmailPattern, "a@b.com") ==>
      "Email" !in BuildErrors(DefaultSchema(), values, matches)
  {
    DefaultSchemaFacts();
    ErrorOfField(DefaultSchema(), values, matches, 2);
  }
}

=== FILE: schema.dfy ===
/**
  The data the form engine passes around: a field descriptor, its validation
  rules, and the value a control writes into the form's value record.
 */
module Schema {
  import opened Wrappers

  /** A field's `validation` object. Every rule is optional; a bound of 0, an
      empty pattern and an absent rule all switch the check off, because the
      checks test the rule for truthiness. */
  datatype Rules = Rules(required: bool, minLength: Option<nat>, maxLength: Option<nat>, pattern: Option<string>)

  /** One field descriptor. `name` is the `label` (the key of the field in the
      value and error records); `kind` is the raw `type` string: a loaded schema may
      carry a kind the renderer does not know. `validation` may be absent. */
  datatype Field = Field(name: string, kind: string, options: seq<string>, validation: Option<Rules>)

  /** What a control stores under its label: a string, the checkbox selection,
      or the first selected file, an opaque identity of the `File` object that
      is never looked into. */
  datatype Value = Str(text: string) | Multi(items: seq<string>) | FileH(file: nat)

  /** The value record and the error record, both keyed by field label. */
  type Values = map<string, Value>
  type Errors = map<string, string>

  /** No two fields share a label. Nothing in the engine enforces it. */
  predicate UniqueLabels(fields: seq<Field>) {
    forall i, j :: 0 <= i < j < |fields| ==> fields[i].name != fields[j].name
  }

  /** `values[label] || ""`: a missing entry reads as the empty string (and an
      empty string is read as itself). */
  function ValueOf(values: Values, key: string): (r: Value)
    ensures key in values ==> r == values[key]
    ensures key !in values ==> r == Str("")
  {
    if key in values then values[key] else Str("")
  }
}

=== FILE: text.dfy ===
/**
  The JavaScript string operations the form engine relies on, written out:
  `split(',')`, `join(',')` (also what `Array.prototype.toString` does),
  `trim()`, `length`, `parseInt` on digit strings and the decimal rendering
  of a number inside a template literal.
 */
module Text {

  /** The characters `String.prototype.trim` strips: WhiteSpace and LineTerminator. */
  predicate IsSpace(c: char) {
    || c == '\t' || c == '\n' || c == '\U{B}' || c == '\U{C}' || c == '\r' || c == ' '
    || c == '\U{A0}' || c == '\U{1680}' || ('\U{2000}' <= c <= '\U{200A}')
    || c == '\U{2028}' || c == '\U{2029}' || c == '\U{202F}' || c == '\U{205F}'
    || c == '\U{3000}' || c == '\U{FEFF}'
  }

  /** Neither end of `s` is a space character. */
  predicate IsTrimmed(s: string) {
    s == [] || (!IsSpace(s[0]) && !IsSpace(s[|s| - 1]))
  }

  /** Drops the leading space characters: the result is a suffix of `s`. */
  function TrimStart(s: string): (r: string)
    ensures |r| <= |s| && r == s[|s| - |r|..]
    ensures forall i :: 0 <= i < |s| - |r| ==> IsSpace(s[i])
    ensures r != [] ==> !IsSpace(r[0])
  {
    if s != [] && IsSpace(s[0]) then TrimStart(s[1..]) else s
  }

  /** Drops the trailing space characters: the result is a prefix of `s`. */
  function TrimEnd(s: string): (r: string)
    ensures |r| <= |s| && r == s[..|r|]
    ensures forall i :: |r| <= i < |s| ==> IsSpace(s[i])
    ensures r != [] ==> !IsSpace(r[|r| - 1])
  {
    if s != [] && IsSpace(s[|s| - 1]) then TrimEnd(s[..|s| - 1]) else s
  }

  /** `s.trim()`. */
  function Trim(s: string): (r: string)
    ensures IsTrimmed(r) && |r| <= |s|
  {
    TrimEnd(TrimStart(s))
  }

  /** A string with no space at either end is its own trim. */
  lemma TrimmedIsFixed(s: string)
    requires IsTrimmed(s)
    ensures Trim(s) == s
  {
  }

  /** Trimming twice is trimming once. */
  lemma TrimIdempotent(s: string)
    ensures Trim(Trim(s)) == Trim(s)
  {
    TrimmedIsFixed(Trim(s));
  }

  /** `s.split(sep)` for a one-character separator: there is always one piece
      more than there are separators, and no piece holds a separator. */
  function Split(s: string, sep: char): (parts: seq<string>)
    ensures |parts| == multiset(s)[sep] + 1
    ensures forall i :: 0 <= i < |parts| ==> sep !in parts[i]
  {
    if s == [] then [""]
    else
      var rest := Split(s[1..], sep);
      assert s == [s[0]] + s[1..];
      assert multiset(s) == multiset{s[0]} + multiset(s[1..]);
      if s[0] == sep then [""] + rest
      else [[s[0]] + rest[0]] + rest[1..]
  }

  /** Joining the pieces of a split gives back the string. */
  lemma {:induction false} JoinSplit(s: string, sep: char)
    ensures Join(Split(s, sep), sep) == s
  {
    if s != [] {
      var rest := Split(s[1..], sep);
      JoinSplit(s[1..], sep);
      SplitHead(s, sep);
      if s[0] == sep {
        JoinCons("", rest, sep);
      } else {
        JoinGrowHead(s[0], rest, sep);
      }
      assert [s[0]] + s[1..] == s;
    }
  }

  /** One step of `Split`: the first character either starts a new piece or
      joins the first piece of the rest. */
  lemma SplitHead(s: string, sep: char)
    requires s != []
    ensures s[0] == sep ==> Split(s, sep) == [""] + Split(s[1..], sep)
    ensures s[0] != sep ==> Split(s, sep) == [[s[0]] + Split(s[1..], sep)[0]] + Split(s[1..], sep)[1..]
  {
  }

  lemma JoinCons(x: string, rest: seq<string>, sep: char)
    requires rest != []
    ensures Join([x] + rest, sep) == x + [sep] + Join(rest, sep)
  {
    assert ([x] + rest)[1..] == rest;
  }

  /** Prepending a character to the first piece prepends it to the joined string. */
  lemma JoinGrowHead(c: char, parts: seq<string>, sep: char)
    requires parts != []
    ensures Join([[c] + parts[0]] + parts[1..], sep) == [c] + Join(parts, sep)
  {
    if |parts| > 1 {
      JoinCons([c] + parts[0], parts[1..], sep);
      JoinCons(parts[0], parts[1..], sep);
      assert [parts[0]] + parts[1..] == parts;
    }
  }

  /** `parts.join(sep)`, which is also how an array is turned into a string. */
  function Join(parts: seq<string>, sep: char): string {
    if parts == [] then ""
    else if |parts| == 1 then parts[0]
    else parts[0] + [sep] + Join(parts[1..], sep)
  }

  /** A piece without separators splits to itself. */
  lemma {:induction false} SplitPlain(a: string, sep: char)
    requires sep !in a
    ensures Split(a, sep) == [a]
  {
    if a != [] {
      SplitPlain(a[1..], sep);
      assert [a[0]] + a[1..] == a;
    }
  }

  /** Splitting stops at the first separator. */
  lemma {:induction false} SplitAtSeparator(a: string, sep: char, b: string)
    requires sep !in a
    ensures Split(a + [sep] + b, sep) == [a] + Split(b, sep)
  {
    if a == [] {
      assert a + [sep] + b == [sep] + b;
      assert ([sep] + b)[1..] == b;
    } else {
      SplitAtSeparator(a[1..], sep, b);
      assert (a + [sep] + b)[1..] == a[1..] + [sep] + b;
      assert [a[0]] + a[1..] == a;
    }
  }

  /** Join then split is the identity on non-empty lists of separator-free pieces. */
  lemma {:induction false} SplitJoin(parts: seq<string>, sep: char)
    requires |parts| >= 1
    requires forall i :: 0 <= i < |parts| ==> sep !in parts[i]
    ensures Split(Join(parts, sep), sep) == parts
  {
    if |parts| == 1 {
      SplitPlain(parts[0], sep);
    } else {
      SplitJoin(parts[1..], sep);
      SplitAtSeparator(parts[0], sep, Join(parts[1..], sep));
      assert [parts[0]] + parts[1..] == parts;
    }
  }

  /** A character outside the Basic Multilingual Plane: JavaScript stores it
      as a surrogate pair of two UTF-16 code units. */
  predicate IsAstral(c: char) {
    c as int > 0xFFFF
  }

  /** `s.length`: the number of UTF-16 code units, so an astral character
      counts twice. It lies between the number of characters and twice that,
      and equals the number of characters exactly when none is astral. */
  function Utf16Length(s: string): (n: nat)
    ensures |s| <= n <= 2 * |s|
    ensures n == |s| <==> forall i :: 0 <= i < |s| ==> !IsAstral(s[i])
  {
    if s == [] then 0
    else
      assert forall i :: 1 <= i < |s| ==> s[i] == s[1..][i - 1];
      (if IsAstral(s[0]) then 2 else 1) + Utf16Length(s[1..])
  }

  predicate IsDigit(c: char) {
    '0' <= c <= '9'
  }

  predicate AllDigits(s: string) {
    forall i :: 0 <= i < |s| ==> IsDigit(s[i])
  }

  function DigitChar(d: nat): (c: char)
    requires d < 10
    ensures IsDigit(c) && c as int - '0' as int == d
  {
    ('0' as int + d) as char
  }

  /** The number a string of decimal digits denotes (`parseInt` on such a string). */
  function DecimalValue(s: string): nat
    requires AllDigits(s)
  {
    if s == [] then 0
    else DecimalValue(s[..|s| - 1]) * 10 + (s[|s| - 1] as int - '0' as int)
  }

  /** The decimal rendering of a number, as a template literal produces it. */
  function NatToString(n: nat): (s: string)
    ensures s != [] && AllDigits(s)
  {
    if n < 10 then [DigitChar(n)] else NatToString(n / 10) + [DigitChar(n % 10)]
  }

  /** Reading back a rendered number gives the number. */
  lemma {:induction false} DecimalValueOfNatToString(n: nat)
    ensures DecimalValue(NatToString(n)) == n
  {
    var s := NatToString(n);
    if n >= 10 {
      DecimalValueOfNatToString(n / 10);
      assert s[..|s| - 1] == NatToString(n / 10);
    }
  }

  /** Different numbers render differently. */
  lemma NatToStringInjective(m: nat, n: nat)
    requires NatToString(m) == NatToString(n)
    ensures m == n
  {
    DecimalValueOfNatToString(m);
    DecimalValueOfNatToString(n);
  }
}

=== FILE: wrappers.dfy ===
/** An optional value: JavaScript's `undefined` for an absent key or rule. */
module Wrappers {
  datatype Option<+T> = None | Some(value: T)
}
